=== FILE: README.md ===
# x16-converter, modelled in Dafny

`x16-converter` turns an indexed-colour PNG into a C header and a C source file
for the Commander X16: a `const uint8_t name[]` array holding the image's packed
pixel bytes, its `name_length`, and, on request, a `name_palette[]` in the VERA
colour layout with its `name_palette_length`. With `--tileset` it first writes
one row of blank tiles, so that tile 0 is empty.

The whole program is `main` in `src/main.rs`. This model pulls the pure logic out
of it and proves what that logic computes:

- `Validation` — the checks on the decoded PNG header (a palette is present,
  width and height are multiples of 8, the `PLTE` byte length is a multiple of 3,
  the colour type is indexed) and the bit-depth mapping, where a 16-bit depth
  is a failure of its own (`unimplemented!()`). Each panic is an `Err`.
- `Bytes` — bytes (`u8` as `0..255`) and the C literals written for them
  (`0x{:02X}`, `0x{:1X}`, `0b00000000`), with a reader for C literals and the
  round trip between the two.
- `Lines` — the newline rule both array loops use (`(i + 1) % n == 0`),
  and the proof that it cuts a whole number of lines' worth of literals into
  exactly that many full lines.
- `Bitmap` — the blank-tile prefix, the frame, the array they form, and the
  `_length` value.
- `Palette` — the reduction of each RGB entry to the two VERA bytes `0xGB, 0x0R`,
  the text of each palette line, and `_palette_length`.
- `Naming` — the identifier taken from the file stem and the lines of `name.h`.
- `Converter` — one whole run: validation, then every output.
- `Results`, `Arith` — an `Option`/`Result` pair and division facts used by the proofs.

The `_length` quirk is modelled as written. With `--tileset` the program writes
`bpp * width` blank bytes, which is one row of 8-by-8 tiles. But `_length` is
`width * (height + 1) / (8 / bpp)`, which adds only one pixel line of
`width * bpp / 8` bytes. So `_length` is `7 * width * bpp / 8` short of the
number of elements in the array. For an 8-by-8 one-bit image that is 9 against
16. `_length` therefore does not count every element of the array when
`--tileset` is given. The blank prefix itself is `width` literals in each of
`bpp` passes, at every depth.

## Model

| member | source | states |
|---|---|---|
| Validation.BitsPerPixel | src/main.rs:47-53 | One, Two, Four and Eight map to the PNG sample depths 1, 2, 4 and 8, all of which divide 8; Sixteen, and only Sixteen, fails with the distinct unimplemented failure |
| Validation.Validate | src/main.rs:37-53 | accepts exactly when a palette is present, width and height are multiples of 8, the palette byte length is a multiple of 3, the colour type is indexed and the depth is not 16; a rejected image reports the first check it fails, in the converter's order; the 16-bit failure happens only after every other check passed; an accepted image keeps the header's width, height and palette |
| Validation.RejectionExamples | src/main.rs:37-53 | a 10-pixel-wide image, a 10-byte palette, a greyscale image, a 16-bit image and an image without palette are rejected with their own failures |
| Bytes.HexLiteral | src/main.rs:104 | `0x{:02X}` writes a byte as `0x` and exactly two upper-case hexadecimal digits, and the literal reads back as the byte |
| Bytes.HexLiteralInjective | src/main.rs:104 | distinct bytes are written as distinct literals |
| Bytes.ParseHexLiterals | src/main.rs:103-104 | the literals of the whole frame read back as the frame bytes, in order |
| Bytes.BlankLiteralsAreZero | src/main.rs:86-90 | both blank literals, `0b00000000` and `0x00`, read as zero |
| Lines.LayoutPeriodic | src/main.rs:92 | the newline pattern depends on the loop counter only modulo the line length, which is why restarting the counter at each blank row changes nothing |
| Lines.LayoutLiterals | src/main.rs:103-109 | whatever the line length, the loop writes every literal once and in order |
| Lines.GroupedIntoLines | src/main.rs:103-109 | `k * n` literals written with a newline after every `n`-th form exactly `k` full lines of `n` literals and `k` newlines |
| Lines.Chunks | src/main.rs:102-109 | cutting a sequence into lines of `n` gives `len / n` lines, all of length `n`, that flatten back to the sequence |
| Bitmap.LineArithmetic | src/main.rs:83-102 | for an accepted width, `width * bpp` is `8 * (width * bpp / 8)`, the frame size is `height` lines of `width * bpp / 8` bytes, and a row of `width` pixels is `8 / bpp` lines |
| Bitmap.BlankRowsLayout | src/main.rs:83-96 | the nested blank loops with the inner counter restarting at every row write exactly what one counter over all `bpp * width` literals would |
| Bitmap.BlankPrefixShape | src/main.rs:82-96 | the blank prefix is `bpp * width` literals that all read as zero, one row of 8-by-8 tiles across the image, written as exactly 8 full lines of `width * bpp / 8` literals |
| Bitmap.FrameShape | src/main.rs:99-109 | the frame is written as exactly `height` full lines of `width * bpp / 8` literals, which read back as the frame bytes |
| Bitmap.ReportedLengthValue | src/main.rs:112-116 | the `_length` division is exact; without `--tileset` it is the frame size, with it the frame size plus one pixel line |
| Bitmap.ArrayContents | src/main.rs:82-116 | the array holds the blank zero bytes (with `--tileset`) then the frame; without `--tileset` `_length` is its element count, with it `_length` is `7 * width * bpp / 8` short, so strictly smaller for a non-empty image |
| Palette.EntriesRoundTrip | src/main.rs:121 | cutting the palette bytes into RGB entries loses and adds nothing |
| Palette.VeraEntry | src/main.rs:121-124 | each entry becomes `0xGB, 0x0R`: the first byte's high nibble is green's, its low nibble blue's, and the second byte is red's high nibble with a zero high nibble |
| Palette.ReduceKeepsColors | src/main.rs:118-126 | read back two bytes at a time, the reduced palette gives each entry's colour cut to four bits per channel, in palette order, one colour per entry |
| Palette.EntryLiterals | src/main.rs:122-124 | the text `0x{G:1X}{B:1X}` and `0x0{R:1X}` of a palette line reads as the two reduced bytes |
| Palette.PaletteLinesRead | src/main.rs:120-126 | the palette lines, one per entry, read back as the reduced palette |
| Palette.PaletteLengthCounts | src/main.rs:127-131 | `2 * len / 3` is the number of reduced bytes, `2 * (len / 3)` |
| Naming.Name | src/main.rs:56-60 | the name is the longest prefix of the stem without a `.`: it is a prefix, holds no `.`, is followed by a `.` when shorter than the stem, and equals the stem exactly when the stem has no `.` |
| Naming.HeaderDeclarations | src/main.rs:62-75 | the header opens with the `name_h` include guard and closes with its `#endif`, always declares `name[]` and `name_length`, and declares `name_palette[]` and `name_palette_length` exactly when `--palette` is given |
| Converter.Convert | src/main.rs:33-131 | a run fails exactly when validation fails, with the same failure, before any output exists |
| Converter.ConvertOutput | src/main.rs:55-131 | an accepted run names the header after the name and the source after the whole stem, includes the header, wraps the header in its include guard, declares the array and `_length` always and the palette and `_palette_length` exactly when the palette is written, writes the blank prefix and frame with the `_length` relation above, and writes the reduced palette and its byte count exactly when asked |
| Converter.ZeroImageExample | src/main.rs:82-116 | the all-zero 8-by-8 one-bit image yields 8 zero bytes with `_length` 8, or 16 zero bytes with `_length` 9 under `--tileset` |

## Left out

- Command-line parsing with `clap` and the output folder prefix (src/main.rs:6-31): library plumbing; the flags are the `Options` parameter.
- File creation, `write!`/`writeln!` and `io::Result` propagation: the model gives the values and line structure of what is written, not the file side effects. The fixed lines of the `.c` file around the arrays (`const uint8_t name[] = {`, `};`, the `_length` definitions) and the `, ` or `,` separator after each literal are not spelled out; the header's lines are.
- An I/O error from `next_frame` after the header and the blank prefix were already written: the model's run either fails validation or produces everything.
- PNG decoding (`Decoder::new`, `read_info`, `next_frame`): a foreign library. The header fields are the `Info` parameter and the frame is a byte-sequence parameter of `FrameSize` bytes. The sub-byte pixel packing happens inside the decoder, so there is no pack/unpack round trip in this program to prove.
- `Path::file_stem` and `to_str` and their `unwrap` panics: standard-library path handling; the model starts from the stem string.
- Machine-width overflow: the `u32` products `width * bpp`, `width * height * bpp` and `width * (height + 1)` are unbounded integers here, and the C `uint16_t` truncation of `_length` and `_palette_length` is not modelled.
- The `& 0xF` mask after `>> 4` in the palette loop: on a `u8` shifted right by 4 it changes nothing, so the model leaves it out.

=== FILE: arith.dfy ===
/** Facts about Euclidean division on naturals that the layout proofs rely on. */
module Arith {

  /** Quotient and remainder are unique. */
  lemma DivModUnique(x: int, q: int, r: int, n: int)
    requires n > 0 && x == q * n + r && 0 <= r < n
    ensures x % n == r && x / n == q
  {
    var d := q - x / n;
    assert d * n == x % n - r;
  }

  /** Adding a multiple of `n` leaves the remainder modulo `n` unchanged. */
  lemma ModPeriodic(a: nat, m: nat, n: nat)
    requires n > 0 && m % n == 0
    ensures (a + m) % n == a % n
  {
    var k := m / n;
    assert m == k * n;
    DivModUnique(a + m, a / n + k, a % n, n);
  }

  /** One more row of `n`. */
  lemma MulSucc(t: nat, n: nat)
    ensures (1 + t) * n == n + t * n
  {
  }

  /** A multiple of `n` is divisible by `n`, with the expected quotient. */
  lemma MultipleDiv(k: nat, n: nat)
    requires n > 0
    ensures (k * n) % n == 0 && (k * n) / n == k
  {
    DivModUnique(k * n, k, 0, n);
  }

  /** A multiple of a multiple of `n` is a multiple of `n`. */
  lemma MultipleOfMultiple(c: nat, w: nat, n: nat)
    requires n > 0 && w % n == 0
    ensures (c * w) % n == 0
  {
    var k := w / n;
    assert w == k * n;
    assert c * w == (c * k) * n;
    MultipleDiv(c * k, n);
  }

  /** Dividing `(d * n) * rows` by `d` is exact and gives `n * rows`. */
  lemma ExactQuotient(w: nat, n: nat, d: nat, rows: nat)
    requires d > 0 && w == d * n
    ensures (w * rows) % d == 0 && (w * rows) / d == n * rows
  {
    assert w * rows == (n * rows) * d;
    MultipleDiv(n * rows, d);
  }
}

=== FILE: bitmap.dfy ===
/**
 The bitmap array of the generated `.c` file: its optional blank-tile prefix,
 the frame bytes, their line grouping, and the `_length` value written after it.

 The frame itself comes packed from the PNG decoder (leftmost pixel in the
 high-order bits), so here it is an opaque byte sequence of the size the
 converter allocates for it.
 */
module Bitmap {
  import opened Results
  import opened Bytes
  import opened Lines
  import opened Validation
  import Arith

  /** `width * bpp / 8`: the bytes of one pixel line, and the literals per text line. */
  function BytesPerLine(width: nat, bpp: nat): nat
  {
    width * bpp / 8
  }

  /** `width * height * bpp / 8`: the size of the buffer the decoder fills. */
  function FrameSize(width: nat, height: nat, bpp: nat): nat
  {
    width * height * bpp / 8
  }

  /** The bytes of one 8-by-8 tile. */
  function TileSize(bpp: nat): nat
  {
    8 * 8 * bpp / 8
  }

  /** None of the divisions by 8 truncates for an accepted width. */
  lemma LineArithmetic(width: nat, height: nat, bpp: nat)
    requires width % 8 == 0 && ValidBpp(bpp)
    ensures width * bpp == 8 * BytesPerLine(width, bpp)
    ensures FrameSize(width, height, bpp) == height * BytesPerLine(width, bpp)
    ensures width == (8 / bpp) * BytesPerLine(width, bpp)
    ensures width > 0 <==> BytesPerLine(width, bpp) > 0
    ensures bpp * width == (width / 8) * TileSize(bpp)
  {
    var k := width / 8;
    assert width == 8 * k;
    assert width * bpp == (k * bpp) * 8;
    Arith.MultipleDiv(k * bpp, 8);
    assert width * height * bpp == (height * (k * bpp)) * 8;
    Arith.MultipleDiv(height * (k * bpp), 8);
    assert TileSize(bpp) == 8 * bpp;
  }

  lemma RepeatAppend(lit: string, a: nat, b: nat)
    ensures Repeat(lit, a + b) == Repeat(lit, a) + Repeat(lit, b)
  {
  }

  /** The literal written for each blank byte: binary for 1 and 2 bits per pixel, hexadecimal otherwise. */
  function BlankLiteral(bpp: nat): (s: string)
    ensures ParseLiteral(s) == Some(0)
  {
    BlankLiteralsAreZero();
    if bpp == 1 || bpp == 2 then "0b00000000" else "0x00"
  }

  /** `count` copies of one literal. */
  function Repeat(lit: string, count: nat): (r: seq<string>)
    ensures |r| == count
    ensures forall i :: 0 <= i < count ==> r[i] == lit
  {
    seq(count, _ => lit)
  }

  /** `count` zero bytes. */
  function Zeros(count: nat): (r: seq<byte>)
    ensures |r| == count
    ensures forall i :: 0 <= i < count ==> r[i] == 0
  {
    seq(count, _ => 0)
  }

  lemma ZerosAppend(a: nat, b: nat)
    ensures Zeros(a) + Zeros(b) == Zeros(a + b)
  {
  }

  /** One pass of the inner blank-tile loop: `width` blank literals, counter restarting at 0. */
  function BlankRow(width: nat, bpp: nat): seq<Emit>
    requires width % 8 == 0 && ValidBpp(bpp)
  {
    LineArithmetic(width, 0, bpp);
    Layout(Repeat(BlankLiteral(bpp), width), BytesPerLine(width, bpp), 0)
  }

  /** The first `rows` passes of the outer blank-tile loop. */
  function BlankRows(width: nat, bpp: nat, rows: nat): seq<Emit>
    requires width % 8 == 0 && ValidBpp(bpp)
  {
    if rows == 0 then [] else BlankRows(width, bpp, rows - 1) + BlankRow(width, bpp)
  }

  /** The `--tileset` prefix: the outer loop runs `bpp` times. */
  function BlankPrefix(width: nat, bpp: nat): seq<Emit>
    requires width % 8 == 0 && ValidBpp(bpp)
  {
    BlankRows(width, bpp, bpp)
  }

  /** Every blank row starts at a multiple of the line length. */
  lemma RowStartAligned(width: nat, bpp: nat, rows: nat)
    requires width % 8 == 0 && ValidBpp(bpp) && width > 0
    ensures BytesPerLine(width, bpp) > 0
    ensures (rows * width) % BytesPerLine(width, bpp) == 0
    ensures (rows + 1) * width == rows * width + width
  {
    var n := BytesPerLine(width, bpp);
    LineArithmetic(width, 0, bpp);
    Arith.MultipleDiv(8 / bpp, n);
    Arith.MultipleOfMultiple(rows, width, n);
  }

  /** Restarting the counter at every row writes the same items as one counter over all rows. */
  lemma {:induction false} BlankRowsLayout(width: nat, bpp: nat, rows: nat)
    requires width % 8 == 0 && ValidBpp(bpp) && width > 0
    ensures BytesPerLine(width, bpp) > 0
    ensures BlankRows(width, bpp, rows)
      == Layout(Repeat(BlankLiteral(bpp), rows * width), BytesPerLine(width, bpp), 0)
  {
    var n := BytesPerLine(width, bpp);
    var lit := BlankLiteral(bpp);
    RowStartAligned(width, bpp, 0);
    if rows == 0 {
      assert Repeat(lit, 0) == [];
    } else {
      var before := (rows - 1) * width;
      BlankRowsLayout(width, bpp, rows - 1);
      RowStartAligned(width, bpp, rows - 1);
      RepeatAppend(lit, before, width);
      LayoutAppend(Repeat(lit, before), Repeat(lit, width), n, 0, before);
      LayoutPeriodic(Repeat(lit, width), n, 0, before, before);
      assert BlankRow(width, bpp) == Layout(Repeat(lit, width), n, 0);
    }
  }

  /**
   The blank-tile prefix is `bpp * width` literals that all read as zero, which
   is one row of blank 8-by-8 tiles across the image, written as exactly 8
   full lines of `width * bpp / 8` literals.
   */
  lemma BlankPrefixShape(width: nat, bpp: nat)
    requires width % 8 == 0 && ValidBpp(bpp)
    ensures Literals(BlankPrefix(width, bpp)) == Repeat(BlankLiteral(bpp), bpp * width)
    ensures ParseAll(Literals(BlankPrefix(width, bpp))) == Some(Zeros(bpp * width))
    ensures bpp * width == (width / 8) * TileSize(bpp)
    ensures width > 0 ==>
      var n := BytesPerLine(width, bpp);
      && n > 0 && bpp * width == 8 * n && (bpp * width) % n == 0
      && BlankPrefix(width, bpp) == Render(Chunks(Repeat(BlankLiteral(bpp), bpp * width), n))
      && |Chunks(Repeat(BlankLiteral(bpp), bpp * width), n)| == 8
      && Breaks(BlankPrefix(width, bpp)) == 8
  {
    LineArithmetic(width, 0, bpp);
    if width == 0 {
      EmptyBlankRows(bpp, bpp);
      assert Repeat(BlankLiteral(bpp), bpp * width) == [];
    } else {
      BlankPrefixLines(width, bpp);
    }
    ParseRepeatedBlank(bpp, bpp * width);
  }

  lemma BlankPrefixLines(width: nat, bpp: nat)
    requires width % 8 == 0 && ValidBpp(bpp) && width > 0
    ensures
      var n := BytesPerLine(width, bpp);
      var lits := Repeat(BlankLiteral(bpp), bpp * width);
      && n > 0 && bpp * width == 8 * n && (bpp * width) % n == 0
      && BlankPrefix(width, bpp) == Render(Chunks(lits, n))
      && |Chunks(lits, n)| == 8
      && Breaks(BlankPrefix(width, bpp)) == 8
      && Literals(BlankPrefix(width, bpp)) == lits
  {
    var n := BytesPerLine(width, bpp);
    var lits := Repeat(BlankLiteral(bpp), bpp * width);
    LineArithmetic(width, 0, bpp);
    BlankRowsLayout(width, bpp, bpp);
    assert BlankPrefix(width, bpp) == Layout(lits, n, 0);
    GroupedIntoLines(lits, n, 8);
  }

  lemma {:induction false} EmptyBlankRows(bpp: nat, rows: nat)
    requires ValidBpp(bpp)
    ensures BlankRows(0, bpp, rows) == []
  {
    if rows > 0 {
      EmptyBlankRows(bpp, rows - 1);
      assert Repeat(BlankLiteral(bpp), 0) == [];
    }
  }

  lemma {:induction false} ParseRepeatedBlank(bpp: nat, count: nat)
    ensures ParseAll(Repeat(BlankLiteral(bpp), count)) == Some(Zeros(count))
  {
    if count > 0 {
      var lits := Repeat(BlankLiteral(bpp), count);
      assert lits[1..] == Repeat(BlankLiteral(bpp), count - 1);
      ParseRepeatedBlank(bpp, count - 1);
      assert Zeros(count) == [0] + Zeros(count - 1);
    }
  }

  /** The frame loop: every byte as `0x{:02X}`, a newline after each `width * bpp / 8` bytes. */
  function FrameBody(frame: seq<byte>, width: nat, height: nat, bpp: nat): seq<Emit>
    requires width % 8 == 0 && ValidBpp(bpp)
    requires |frame| == FrameSize(width, height, bpp)
  {
    LineArithmetic(width, height, bpp);
    Layout(HexLiterals(frame), BytesPerLine(width, bpp), 0)
  }

  /**
   The frame is written as exactly `height` full lines of `width * bpp / 8`
   literals, which read back as the frame bytes.
   */
  lemma FrameShape(frame: seq<byte>, width: nat, height: nat, bpp: nat)
    requires width % 8 == 0 && ValidBpp(bpp)
    requires |frame| == FrameSize(width, height, bpp)
    ensures Literals(FrameBody(frame, width, height, bpp)) == HexLiterals(frame)
    ensures ParseAll(Literals(FrameBody(frame, width, height, bpp))) == Some(frame)
    ensures width > 0 ==>
      var n := BytesPerLine(width, bpp);
      && n > 0 && |HexLiterals(frame)| == height * n && |HexLiterals(frame)| % n == 0
      && FrameBody(frame, width, height, bpp) == Render(Chunks(HexLiterals(frame), n))
      && |Chunks(HexLiterals(frame), n)| == height
      && Breaks(FrameBody(frame, width, height, bpp)) == height
  {
    FrameLiterals(frame, width, height, bpp);
    if width > 0 {
      FrameLines(frame, width, height, bpp);
    }
  }

  lemma FrameLiterals(frame: seq<byte>, width: nat, height: nat, bpp: nat)
    requires width % 8 == 0 && ValidBpp(bpp)
    requires |frame| == FrameSize(width, height, bpp)
    ensures Literals(FrameBody(frame, width, height, bpp)) == HexLiterals(frame)
    ensures ParseAll(Literals(FrameBody(frame, width, height, bpp))) == Some(frame)
  {
    var n := BytesPerLine(width, bpp);
    var lits := HexLiterals(frame);
    assert n > 0 || |lits| == 0 by { LineArithmetic(width, height, bpp); }
    assert FrameBody(frame, width, height, bpp) == Layout(lits, n, 0);
    LayoutLiterals(lits, n, 0);
    ParseHexLiterals(frame);
  }

  lemma FrameLines(frame: seq<byte>, width: nat, height: nat, bpp: nat)
    requires width % 8 == 0 && ValidBpp(bpp) && width > 0
    requires |frame| == FrameSize(width, height, bpp)
    ensures
      var n := BytesPerLine(width, bpp);
      && n > 0 && |HexLiterals(frame)| == height * n && |HexLiterals(frame)| % n == 0
      && FrameBody(frame, width, height, bpp) == Render(Chunks(HexLiterals(frame), n))
      && |Chunks(HexLiterals(frame), n)| == height
      && Breaks(FrameBody(frame, width, height, bpp)) == height
  {
    var n := BytesPerLine(width, bpp);
    var lits := HexLiterals(frame);
    assert n > 0 && |lits| == height * n by { LineArithmetic(width, height, bpp); }
    assert FrameBody(frame, width, height, bpp) == Layout(lits, n, 0);
    GroupedIntoLines(lits, n, height);
  }

  /** `width * (height + t) / (8 / bpp)` with `t` the tileset flag: the `_length` value. */
  function ReportedLength(width: nat, height: nat, bpp: nat, tileset: bool): nat
    requires ValidBpp(bpp)
  {
    width * (height + if tileset then 1 else 0) / (8 / bpp)
  }

  /**
   The `_length` division is exact, and the value counts the frame bytes plus,
   with `--tileset`, one pixel line of `width * bpp / 8` bytes.
   */
  lemma ReportedLengthValue(width: nat, height: nat, bpp: nat, tileset: bool)
    requires width % 8 == 0 && ValidBpp(bpp)
    ensures (width * (height + if tileset then 1 else 0)) % (8 / bpp) == 0
    ensures !tileset ==> ReportedLength(width, height, bpp, tileset) == FrameSize(width, height, bpp)
    ensures tileset ==> ReportedLength(width, height, bpp, tileset)
                        == FrameSize(width, height, bpp) + BytesPerLine(width, bpp)
  {
    var n := BytesPerLine(width, bpp);
    LineArithmetic(width, height, bpp);
    if tileset {
      Arith.ExactQuotient(width, n, 8 / bpp, height + 1);
      assert n * (height + 1) == height * n + n;
    } else {
      Arith.ExactQuotient(width, n, 8 / bpp, height);
    }
  }

  /** The whole initialiser of `name[]`: the blank prefix if `--tileset`, then the frame. */
  function ArrayBody(frame: seq<byte>, width: nat, height: nat, bpp: nat, tileset: bool): seq<Emit>
    requires width % 8 == 0 && ValidBpp(bpp)
    requires |frame| == FrameSize(width, height, bpp)
  {
    (if tileset then BlankPrefix(width, bpp) else []) + FrameBody(frame, width, height, bpp)
  }

  /**
   The array holds the zero bytes of the blank prefix (with `--tileset`) and
   then the frame bytes. Without `--tileset`, `_length` is its element count;
   with it, `_length` falls short of the element count by `7 * width * bpp / 8`,
   because it adds one pixel line where a whole row of tiles was written.
   */
  lemma ArrayContents(frame: seq<byte>, width: nat, height: nat, bpp: nat, tileset: bool)
    requires width % 8 == 0 && ValidBpp(bpp)
    requires |frame| == FrameSize(width, height, bpp)
    ensures ParseAll(Literals(ArrayBody(frame, width, height, bpp, tileset)))
      == Some((if tileset then Zeros(bpp * width) else []) + frame)
    ensures !tileset ==>
      |Literals(ArrayBody(frame, width, height, bpp, tileset))| == ReportedLength(width, height, bpp, tileset)
    ensures tileset ==>
      |Literals(ArrayBody(frame, width, height, bpp, tileset))|
        == ReportedLength(width, height, bpp, tileset) + 7 * BytesPerLine(width, bpp)
    ensures tileset && width > 0 ==>
      ReportedLength(width, height, bpp, tileset) < |Literals(ArrayBody(frame, width, height, bpp, tileset))|
  {
    var prefix := if tileset then BlankPrefix(width, bpp) else [];
    var body := FrameBody(frame, width, height, bpp);
    LiteralsAppend(prefix, body);
    FrameShape(frame, width, height, bpp);
    BlankPrefixShape(width, bpp);
    ReportedLengthValue(width, height, bpp, tileset);
    LineArithmetic(width, height, bpp);
    ParseAllAppend(Literals(prefix), Literals(body));
    if !tileset {
      assert Literals(prefix) == [];
      assert [] + frame == frame;
    }
  }
}

=== FILE: bytes.dfy ===
/**
 Bytes and the C literals the converter writes for them.

 The generated `.c` file spells every byte as a C integer literal: `0x` followed
 by upper-case hexadecimal digits (Rust's `{:02X}` and `{:1X}` formats), or `0b`
 followed by binary digits for the blank tiles of 1- and 2-bit images. This
 module gives those spellings and a reader for C literals, and proves that the
 reader gives back the value that was written.
 */
module Bytes {
  import opened Results

  /** Rust's `u8`. */
  type byte = x: int | 0 <= x < 256

  /** `b >> 4` on a `u8`: the high nibble. */
  function HighNibble(b: byte): (r: nat)
    ensures r < 16
    ensures 16 * r <= b < 16 * r + 16
  {
    b / 16
  }

  /** `b & 0xF` on a `u8`: the low nibble. */
  function LowNibble(b: byte): (r: nat)
    ensures r < 16
    ensures b == 16 * HighNibble(b) + r
  {
    b % 16
  }

  const UpperHexDigits: string := "0123456789ABCDEF"

  /** The upper-case hexadecimal digit of a value below 16 (Rust's `{:X}` on one nibble). */
  function HexDigit(d: nat): (c: char)
    requires d < 16
    ensures DigitValue(c, 16) == Some(d)
  {
    UpperHexDigits[d]
  }

  /** The value of a C digit in the given base, either letter case accepted. */
  function DigitValue(c: char, base: nat): (r: Option<nat>)
    ensures r.Some? ==> r.value < base
  {
    var v :=
      if '0' <= c <= '9' then (c - '0') as int
      else if 'A' <= c <= 'F' then (c - 'A') as int + 10
      else if 'a' <= c <= 'f' then (c - 'a') as int + 10
      else base;
    if v < base then Some(v) else None
  }

  /** The value of a non-empty digit string, most significant digit first. */
  function DigitsValue(ds: string, base: nat): Option<nat>
    decreases |ds|
  {
    if |ds| == 0 then None
    else
      var last := DigitValue(ds[|ds| - 1], base);
      if last.None? then None
      else if |ds| == 1 then last
      else
        var front := DigitsValue(ds[..|ds| - 1], base);
        if front.None? then None else Some(front.value * base + last.value)
  }

  /** Reads a C integer literal with a `0x` or `0b` prefix. */
  function ParseLiteral(s: string): Option<nat>
  {
    if |s| > 2 && s[..2] == "0x" then DigitsValue(s[2..], 16)
    else if |s| > 2 && s[..2] == "0b" then DigitsValue(s[2..], 2)
    else None
  }

  /** Two hexadecimal digits after `0x` read back as the value they spell. */
  lemma HexPairValue(hi: nat, lo: nat)
    requires hi < 16 && lo < 16
    ensures ParseLiteral("0x" + [HexDigit(hi), HexDigit(lo)]) == Some(16 * hi + lo)
  {
    var ds := [HexDigit(hi), HexDigit(lo)];
    var s := "0x" + ds;
    assert s[..2] == "0x" && s[2..] == ds;
    assert DigitsValue(ds[..1], 16) == Some(hi);
  }

  /** `0x{:02X}`: a byte as exactly two upper-case hexadecimal digits. */
  function HexLiteral(b: byte): (s: string)
    ensures |s| == 4 && s[..2] == "0x"
    ensures s[2] in UpperHexDigits && s[3] in UpperHexDigits
    ensures ParseLiteral(s) == Some(b)
  {
    var hi := HighNibble(b);
    var lo := LowNibble(b);
    HexPairValue(hi, lo);
    var s := "0x" + [HexDigit(hi), HexDigit(lo)];
    assert s[2] == UpperHexDigits[hi] && s[3] == UpperHexDigits[lo];
    s
  }

  /** Distinct bytes are written as distinct literals. */
  lemma HexLiteralInjective(a: byte, b: byte)
    requires HexLiteral(a) == HexLiteral(b)
    ensures a == b
  {
  }

  /** The literals of a byte sequence, in order. */
  function HexLiterals(bs: seq<byte>): (r: seq<string>)
    ensures |r| == |bs|
    ensures forall i :: 0 <= i < |bs| ==> r[i] == HexLiteral(bs[i])
  {
    seq(|bs|, i requires 0 <= i < |bs| => HexLiteral(bs[i]))
  }

  /** Reads every literal of a sequence; fails if any one is unreadable. */
  function ParseAll(lits: seq<string>): (r: Option<seq<nat>>)
    ensures r.Some? ==> |r.value| == |lits|
  {
    if |lits| == 0 then Some([])
    else
      var head := ParseLiteral(lits[0]);
      var tail := ParseAll(lits[1..]);
      if head.None? || tail.None? then None else Some([head.value] + tail.value)
  }

  /** Reading two literals in a row. */
  lemma ParsePair(x: string, y: string, a: nat, b: nat)
    requires ParseLiteral(x) == Some(a) && ParseLiteral(y) == Some(b)
    ensures ParseAll([x, y]) == Some([a, b])
  {
    var none: seq<nat> := [];
    assert [y][1..] == [];
    assert [b] + none == [b];
    assert ParseAll([y]) == Some([b]);
    assert [x, y][1..] == [y];
    assert [a] + [b] == [a, b];
  }

  lemma {:induction false} ParseAllAppend(a: seq<string>, b: seq<string>)
    requires ParseAll(a).Some? && ParseAll(b).Some?
    ensures ParseAll(a + b) == Some(ParseAll(a).value + ParseAll(b).value)
    decreases |a|
  {
    if |a| == 0 {
      assert a + b == b;
      assert ParseAll(a).value == [];
      assert [] + ParseAll(b).value == ParseAll(b).value;
    } else {
      assert (a + b)[0] == a[0];
      assert (a + b)[1..] == a[1..] + b;
      ParseAllAppend(a[1..], b);
      var h := ParseLiteral(a[0]).value;
      assert ParseAll(a).value == [h] + ParseAll(a[1..]).value;
      assert ParseAll(a + b).value == [h] + ParseAll(a[1..] + b).value;
      assert [h] + (ParseAll(a[1..]).value + ParseAll(b).value)
          == ([h] + ParseAll(a[1..]).value) + ParseAll(b).value;
    }
  }

  /** Round trip: reading back the literals of a byte sequence yields the bytes. */
  lemma {:induction false} ParseHexLiterals(bs: seq<byte>)
    ensures ParseAll(HexLiterals(bs)) == Some(bs)
    decreases |bs|
  {
    if |bs| > 0 {
      assert HexLiterals(bs)[1..] == HexLiterals(bs[1..]);
      ParseHexLiterals(bs[1..]);
      assert bs == [bs[0]] + bs[1..];
    }
  }

  /** The literals `0b00000000` and `0x00` written for blank tiles both read as zero. */
  lemma BlankLiteralsAreZero()
    ensures ParseLiteral("0b00000000") == Some(0)
    ensures ParseLiteral("0x00") == Some(0)
  {
    assert "0b00000000"[..2] == "0b";
    assert "0b00000000"[2..] == "00000000";
    assert "0x00"[..2] == "0x";
    assert "0x00"[2..] == "00";
    assert "00000000"[..7] == "0000000";
    assert "0000000"[..6] == "000000";
    assert "000000"[..5] == "00000";
    assert "00000"[..4] == "0000";
    assert "0000"[..3] == "000";
    assert "000"[..2] == "00";
    assert "00"[..1] == "0";
  }
}

=== FILE: converter.dfy ===
/**
 One conversion run: validate the decoded header, then produce the header
 lines, the bitmap array with its `_length`, and, with `--palette`, the
 reduced palette with its `_palette_length`.

 A failed check stops the run before any file is created, so a run either
 fails with the first check it fails or produces the whole output. The frame
 bytes are what the PNG decoder writes into the buffer of `FrameSize` bytes
 the converter allocates.
 */
module Converter {
  import opened Results
  import opened Bytes
  import opened Lines
  import opened Validation
  import opened Bitmap
  import opened Palette
  import opened Naming

  /** The `--tileset` and `--palette` flags. */
  datatype Options = Options(tileset: bool, palette: bool)

  /** The `_palette[]` initialiser lines and the `_palette_length` value. */
  datatype PaletteOutput = PaletteOutput(lines: seq<seq<string>>, length: nat)

  /** What one run writes into `name.h` and `stem.c`. */
  datatype Output = Output(
    headerFile: string,
    header: seq<string>,
    sourceFile: string,
    includeLine: string,
    bitmap: seq<Emit>,
    length: nat,
    palette: Option<PaletteOutput>)

  /** The frame holds as many bytes as the converter allocates for an accepted image. */
  predicate FrameFits(info: Info, frame: seq<byte>)
  {
    Validate(info).Ok? ==>
      |frame| == FrameSize(info.width, info.height, Validate(info).value.bpp)
  }

  function Convert(info: Info, frame: seq<byte>, stem: string, opts: Options): (r: Result<Output, Failure>)
    requires FrameFits(info, frame)
    ensures r.Err? <==> Validate(info).Err?
    ensures r.Err? ==> r.error == Validate(info).error
  {
    match Validate(info)
    case Err(e) => Err(e)
    case Ok(img) =>
      var name := Name(stem);
      var palette :=
        if opts.palette then
          var es := Entries(img.palette);
          Some(PaletteOutput(PaletteLines(es), PaletteLength(|img.palette|)))
        else None;
      Ok(Output(
        HeaderFileName(name),
        HeaderLines(name, opts.palette),
        SourceFileName(stem),
        "#include \"" + HeaderFileName(name) + "\"",
        ArrayBody(frame, img.width, img.height, img.bpp, opts.tileset),
        ReportedLength(img.width, img.height, img.bpp, opts.tileset),
        palette))
  }

  /**
   An accepted image yields: files named after the name and the stem, a header
   inside its include guard that declares the array and `_length`, and the
   palette and `_palette_length` exactly when they are written, an array holding the blank
   prefix (with `--tileset`) and the frame, a `_length` that counts the array's
   elements without `--tileset` and falls short by `7 * width * bpp / 8` with
   it, and, exactly when asked for, the reduced palette with a
   `_palette_length` that counts its bytes.
   */
  lemma ConvertOutput(info: Info, frame: seq<byte>, stem: string, opts: Options)
    requires FrameFits(info, frame) && Validate(info).Ok?
    ensures var img := Validate(info).value;
      var out := Convert(info, frame, stem, opts).value;
      var name := Name(stem);
      && out.headerFile == name + ".h"
      && out.sourceFile == stem + ".c"
      && out.includeLine == "#include \"" + out.headerFile + "\""
      && |out.header| >= 2
      && out.header[0] == "#ifndef " + Guard(name)
      && out.header[1] == "#define " + Guard(name)
      && out.header[|out.header| - 1] == "#endif // " + Guard(name)
      && ArrayDecl(name) in out.header && LengthDecl(name) in out.header
      && (PaletteDecl(name) in out.header <==> opts.palette)
      && (PaletteLengthDecl(name) in out.header <==> opts.palette)
      && ParseAll(Literals(out.bitmap))
           == Some((if opts.tileset then Zeros(img.bpp * img.width) else []) + frame)
      && (!opts.tileset ==> out.length == |Literals(out.bitmap)|)
      && (opts.tileset ==> out.length + 7 * BytesPerLine(img.width, img.bpp) == |Literals(out.bitmap)|)
      && (out.palette.Some? <==> opts.palette)
      && (out.palette.Some? ==>
            && ParseAll(Flatten(out.palette.value.lines)) == Some(Reduce(Entries(img.palette)))
            && out.palette.value.length == |Reduce(Entries(img.palette))| == 2 * (|img.palette| / 3)
            && |out.palette.value.lines| == |img.palette| / 3)
  {
    var img := Validate(info).value;
    HeaderDeclarations(Name(stem), opts.palette);
    ArrayContents(frame, img.width, img.height, img.bpp, opts.tileset);
    if opts.palette {
      PaletteLinesRead(Entries(img.palette));
      PaletteLengthCounts(img.palette);
    }
  }

  /**
   The 8-by-8 one-bit image of zero pixels: 8 zero bytes and `_length` 8; with
   `--tileset`, 16 zero bytes and `_length` 9.
   */
  lemma ZeroImageExample(p: seq<byte>)
    requires |p| % 3 == 0
    ensures var info := Info(8, 8, One, Indexed, Some(p));
      && FrameFits(info, Zeros(8))
      && var plain := Convert(info, Zeros(8), "blank", Options(false, false));
      && var tiles := Convert(info, Zeros(8), "blank", Options(true, false));
      && plain.Ok? && tiles.Ok?
      && ParseAll(Literals(plain.value.bitmap)) == Some(Zeros(8))
      && plain.value.length == 8
      && ParseAll(Literals(tiles.value.bitmap)) == Some(Zeros(16))
      && tiles.value.length == 9
  {
    ZeroImageRun(p, false);
    ZeroImageRun(p, true);
  }

  /** One run of the zero-image example, with or without `--tileset`. */
  lemma ZeroImageRun(p: seq<byte>, tileset: bool)
    requires |p| % 3 == 0
    ensures var info := Info(8, 8, One, Indexed, Some(p));
      && FrameFits(info, Zeros(8))
      && var out := Convert(info, Zeros(8), "blank", Options(tileset, false));
      && out.Ok?
      && ParseAll(Literals(out.value.bitmap)) == Some(Zeros(if tileset then 16 else 8))
      && out.value.length == if tileset then 9 else 8
  {
    var info := Info(8, 8, One, Indexed, Some(p));
    assert Validate(info) == Ok(Image(8, 8, 1, p));
    assert FrameSize(8, 8, 1) == 8;
    assert BytesPerLine(8, 1) == 1;
    var out := Convert(info, Zeros(8), "blank", Options(tileset, false));
    assert out.value.bitmap == ArrayBody(Zeros(8), 8, 8, 1, tileset);
    assert out.value.length == ReportedLength(8, 8, 1, tileset);
    ArrayContents(Zeros(8), 8, 8, 1, tileset);
    ReportedLengthValue(8, 8, 1, tileset);
    if tileset {
      ZerosAppend(8, 8);
    } else {
      assert [] + Zeros(8) == Zeros(8);
    }
  }
}

=== FILE: lines.dfy ===
/**
 Line grouping of the generated C array initialisers.

 Both loops that fill the `const uint8_t name[]` initialiser write a literal
 followed by `, `, and a newline after the `i`-th literal whenever
 `(i + 1) % n == 0`, where `n` is the number of bytes in one pixel line. The
 frame loop counts `i` over the whole frame; the blank-tile loop restarts `i`
 at every row. `Layout` models one such loop with a starting counter `off`;
 `Render(Chunks(vs, n))` is the independent reading "`vs` cut into full lines
 of `n` literals, each ended by a newline", and `LayoutLines` connects the two.
 */
module Lines {
  import Arith

  /** One emitted item: a literal followed by `, `, or a newline. */
  datatype Emit = Value(literal: string) | Break

  /** One loop iteration with counter `i`: the literal, then a newline if `(i + 1) % n == 0`. */
  function Step(v: string, i: nat, n: nat): (r: seq<Emit>)
    requires n > 0
    ensures 1 <= |r| <= 2 && r[0] == Value(v)
    ensures |r| == 2 <==> (i + 1) % n == 0
    ensures |r| == 2 ==> r[1] == Break
  {
    [Value(v)] + (if (i + 1) % n == 0 then [Break] else [])
  }

  /**
   The items a loop writes for the literals `vs` when its counter starts at
   `off`. A loop over no literals writes nothing, whatever `n` is (the converter
   never evaluates `% n` then).
   */
  function Layout(vs: seq<string>, n: nat, off: nat): seq<Emit>
    requires n > 0 || |vs| == 0
    decreases |vs|
  {
    if |vs| == 0 then [] else Step(vs[0], off, n) + Layout(vs[1..], n, off + 1)
  }

  /** The literals among the items, in order: what the C compiler reads as array elements. */
  function Literals(es: seq<Emit>): (r: seq<string>)
    ensures |r| <= |es|
  {
    if |es| == 0 then []
    else if es[0].Value? then [es[0].literal] + Literals(es[1..])
    else Literals(es[1..])
  }

  /** The number of newlines among the items. */
  function Breaks(es: seq<Emit>): (r: nat)
    ensures r + |Literals(es)| == |es|
  {
    if |es| == 0 then 0
    else (if es[0].Break? then 1 else 0) + Breaks(es[1..])
  }

  lemma {:induction false} LiteralsAppend(a: seq<Emit>, b: seq<Emit>)
    ensures Literals(a + b) == Literals(a) + Literals(b)
    ensures Breaks(a + b) == Breaks(a) + Breaks(b)
    decreases |a|
  {
    if |a| > 0 {
      assert (a + b)[1..] == a[1..] + b;
      LiteralsAppend(a[1..], b);
    } else {
      assert a + b == b;
    }
  }

  /** Whatever the line length, a loop writes every literal once and in order. */
  lemma {:induction false} LayoutLiterals(vs: seq<string>, n: nat, off: nat)
    requires n > 0 || |vs| == 0
    ensures Literals(Layout(vs, n, off)) == vs
    decreases |vs|
  {
    if |vs| > 0 {
      var s := Step(vs[0], off, n);
      LiteralsAppend(s, Layout(vs[1..], n, off + 1));
      assert Literals(s) == [vs[0]] by {
        assert s[1..] == [] || s[1..] == [Break];
        assert Literals(s[1..]) == [];
      }
      LayoutLiterals(vs[1..], n, off + 1);
      assert vs == [vs[0]] + vs[1..];
    }
  }

  /**
   Running a loop over `a + b` is running it over `a`, then over `b` with the
   counter advanced to `next`, which is `off + |a|`.
   */
  lemma {:induction false} LayoutAppend(a: seq<string>, b: seq<string>, n: nat, off: nat, next: nat)
    requires n > 0 && next == off + |a|
    ensures Layout(a + b, n, off) == Layout(a, n, off) + Layout(b, n, next)
    decreases |a|
  {
    if |a| == 0 {
      assert a + b == b;
    } else {
      assert (a + b)[0] == a[0];
      assert (a + b)[1..] == a[1..] + b;
      LayoutAppend(a[1..], b, n, off + 1, next);
    }
  }

  /**
   The items written depend on the counter only modulo `n`: starting it at
   `shifted`, which is `off` plus a multiple of `n`, writes the same items.
   */
  lemma {:induction false} LayoutPeriodic(vs: seq<string>, n: nat, off: nat, m: nat, shifted: nat)
    requires n > 0 && m % n == 0 && shifted == off + m
    ensures Layout(vs, n, shifted) == Layout(vs, n, off)
    decreases |vs|
  {
    if |vs| > 0 {
      Arith.ModPeriodic(off + 1, m, n);
      assert shifted + 1 == off + 1 + m;
      LayoutPeriodic(vs[1..], n, off + 1, m, shifted + 1);
    }
  }

  /** The literals as items, without any newline. */
  function Values(vs: seq<string>): (r: seq<Emit>)
    ensures |r| == |vs|
    ensures forall i :: 0 <= i < |vs| ==> r[i] == Value(vs[i])
  {
    seq(|vs|, i requires 0 <= i < |vs| => Value(vs[i]))
  }

  /** A counter that never reaches a multiple of `n` writes no newline. */
  lemma {:induction false} LayoutWithoutBreak(vs: seq<string>, n: nat, off: nat)
    requires n > 0 && off + |vs| < n
    ensures Layout(vs, n, off) == Values(vs)
    decreases |vs|
  {
    if |vs| > 0 {
      Arith.DivModUnique(off + 1, 0, off + 1, n);
      assert Step(vs[0], off, n) == [Value(vs[0])];
      LayoutWithoutBreak(vs[1..], n, off + 1);
      assert Values(vs) == [Value(vs[0])] + Values(vs[1..]);
    }
  }

  /** Exactly `n` literals from counter 0 make one full line ended by a newline. */
  lemma LayoutOneLine(vs: seq<string>, n: nat)
    requires n > 0 && |vs| == n
    ensures Layout(vs, n, 0) == Values(vs) + [Break]
  {
    var init := vs[..n - 1];
    var last := vs[n - 1];
    assert vs == init + [last];
    LayoutAppend(init, [last], n, 0, n - 1);
    LayoutWithoutBreak(init, n, 0);
    assert Layout([last], n, n - 1) == [Value(last), Break];
    assert Values(vs) == Values(init) + [Value(last)];
  }

  /** Flattens a sequence of lines back into one sequence. */
  function Flatten<T>(ls: seq<seq<T>>): (r: seq<T>)
    ensures ls == [] ==> r == []
  {
    if |ls| == 0 then [] else ls[0] + Flatten(ls[1..])
  }

  /** Cuts `vs` into consecutive lines of exactly `n` elements. */
  function Chunks<T>(vs: seq<T>, n: nat): (r: seq<seq<T>>)
    requires n > 0 && |vs| % n == 0
    ensures |r| * n == |vs|
    ensures forall i :: 0 <= i < |r| ==> |r[i]| == n
    ensures Flatten(r) == vs
    decreases |vs|
  {
    if |vs| == 0 then []
    else
      var rest := vs[n..];
      assert |rest| % n == 0 by { Arith.ModPeriodic(|rest|, n, n); }
      var tail := Chunks(rest, n);
      var r := [vs[..n]] + tail;
      assert r[0] == vs[..n] && r[1..] == tail;
      assert |r| == 1 + |tail|;
      Arith.MulSucc(|tail|, n);
      assert vs == vs[..n] + rest;
      r
  }

  /** Full lines, each written as its literals followed by a newline. */
  function Render(ls: seq<seq<string>>): (r: seq<Emit>)
  {
    if |ls| == 0 then [] else Values(ls[0]) + [Break] + Render(ls[1..])
  }

  /** A loop over a whole number of lines, counter from 0, writes exactly those full lines. */
  lemma {:induction false} LayoutLines(vs: seq<string>, n: nat)
    requires n > 0 && |vs| % n == 0
    ensures Layout(vs, n, 0) == Render(Chunks(vs, n))
    decreases |vs|
  {
    if |vs| > 0 {
      var rest := vs[n..];
      assert |rest| % n == 0 by { Arith.ModPeriodic(|rest|, n, n); }
      assert vs == vs[..n] + rest;
      LayoutAppend(vs[..n], rest, n, 0, n);
      LayoutOneLine(vs[..n], n);
      LayoutPeriodic(rest, n, 0, n, n);
      LayoutLines(rest, n);
      var c := Chunks(vs, n);
      assert c[0] == vs[..n] && c[1..] == Chunks(rest, n);
    }
  }

  /** Rendering `k` lines writes `k` newlines. */
  lemma {:induction false} RenderBreaks(ls: seq<seq<string>>)
    ensures Breaks(Render(ls)) == |ls|
    decreases |ls|
  {
    if |ls| > 0 {
      LiteralsAppend(Values(ls[0]) + [Break], Render(ls[1..]));
      LiteralsAppend(Values(ls[0]), [Break]);
      ValuesHaveNoBreak(ls[0]);
      RenderBreaks(ls[1..]);
    }
  }

  lemma {:induction false} ValuesHaveNoBreak(vs: seq<string>)
    ensures Breaks(Values(vs)) == 0
    decreases |vs|
  {
    if |vs| > 0 {
      assert Values(vs)[1..] == Values(vs[1..]);
      ValuesHaveNoBreak(vs[1..]);
    }
  }

  /** The whole grouping law: `k * n` literals from counter 0 form `k` full lines of `n`, and nothing else. */
  lemma GroupedIntoLines(vs: seq<string>, n: nat, k: nat)
    requires n > 0 && |vs| == k * n
    ensures |vs| % n == 0
    ensures Layout(vs, n, 0) == Render(Chunks(vs, n))
    ensures |Chunks(vs, n)| == k
    ensures Breaks(Layout(vs, n, 0)) == k
    ensures Literals(Layout(vs, n, 0)) == vs
  {
    Arith.MultipleDiv(k, n);
    LayoutLines(vs, n);
    var c := Chunks(vs, n);
    Arith.MultipleDiv(|c|, n);
    RenderBreaks(c);
    LayoutLiterals(vs, n, 0);
  }
}

=== FILE: naming.dfy ===
/**
 The identifier the generated files use, and the header file's lines.

 The identifier `name` is the input file's stem up to its first `.`, so that
 `tiles.4bpp.png` gives `tiles`. The header is `name.h`; the source file keeps
 the whole stem, `tiles.4bpp.c`.
 */
module Naming {

  /** `stem.chars().take_while(|c| *c != '.')`. */
  function Name(stem: string): (name: string)
    ensures name <= stem
    ensures '.' !in name
    ensures |name| < |stem| ==> stem[|name|] == '.'
    ensures name == stem <==> '.' !in stem
    decreases |stem|
  {
    if |stem| == 0 || stem[0] == '.' then [] else [stem[0]] + Name(stem[1..])
  }

  function HeaderFileName(name: string): string { name + ".h" }

  function SourceFileName(stem: string): string { stem + ".c" }

  function Guard(name: string): string { name + "_h" }

  function ArrayDecl(name: string): string { "extern const uint8_t " + name + "[];" }

  function LengthDecl(name: string): string { "extern const uint16_t " + name + "_length;" }

  function PaletteDecl(name: string): string { "extern const uint8_t " + name + "_palette[];" }

  function PaletteLengthDecl(name: string): string { "extern const uint16_t " + name + "_palette_length;" }

  /** The lines of `name.h`. */
  function HeaderLines(name: string, palette: bool): seq<string>
  {
    ["#ifndef " + Guard(name), "#define " + Guard(name), "", "#include <stdint.h>", "",
     ArrayDecl(name), LengthDecl(name)]
    + (if palette then [PaletteDecl(name), PaletteLengthDecl(name)] else [])
    + ["", "#endif // " + Guard(name)]
  }

  /**
   The header is wrapped in the include guard `name_h`, always declares the
   array and its length, and declares the palette and its length exactly when
   the palette is written.
   */
  lemma HeaderDeclarations(name: string, palette: bool)
    ensures var h := HeaderLines(name, palette);
      && |h| >= 2
      && h[0] == "#ifndef " + Guard(name)
      && h[1] == "#define " + Guard(name)
      && h[|h| - 1] == "#endif // " + Guard(name)
      && ArrayDecl(name) in h
      && LengthDecl(name) in h
      && (PaletteDecl(name) in h <==> palette)
      && (PaletteLengthDecl(name) in h <==> palette)
  {
  }
}

=== FILE: palette.dfy ===
/**
 Palette reduction to the Commander X16 VERA colour layout.

 With `--palette`, every RGB entry of the `PLTE` chunk is written as two bytes:
 green's high nibble over blue's high nibble (`0xGB`), then red's high nibble
 with a zero high nibble (`0x0R`). The count written as `_palette_length` is
 `2 * len / 3`, where `len` is the palette's byte length.
 */
module Palette {
  import opened Results
  import opened Bytes
  import opened Lines

  /** One palette entry, as `palette.chunks(3)` yields it. */
  datatype Rgb = Rgb(r: byte, g: byte, b: byte)

  /** A 12-bit colour, four bits per channel. */
  datatype Rgb12 = Rgb12(r: nat, g: nat, b: nat)

  /** The entries of a palette whose byte length is a multiple of 3. */
  function Entries(p: seq<byte>): (es: seq<Rgb>)
    requires |p| % 3 == 0
    ensures |es| == |p| / 3
    decreases |p|
  {
    if |p| == 0 then [] else [Rgb(p[0], p[1], p[2])] + Entries(p[3..])
  }

  /** The palette bytes of a sequence of entries. */
  function Serialize(es: seq<Rgb>): (p: seq<byte>)
    ensures |p| == 3 * |es|
  {
    if |es| == 0 then [] else [es[0].r, es[0].g, es[0].b] + Serialize(es[1..])
  }

  /** Cutting the palette into entries loses nothing. */
  lemma {:induction false} EntriesRoundTrip(p: seq<byte>)
    requires |p| % 3 == 0
    ensures Serialize(Entries(p)) == p
    decreases |p|
  {
    if |p| > 0 {
      EntriesRoundTrip(p[3..]);
      var es := Entries(p);
      assert es[1..] == Entries(p[3..]);
      assert p == [p[0], p[1], p[2]] + p[3..];
    }
  }

  /** The two bytes `0xGB, 0x0R` written for one entry. */
  function VeraEntry(c: Rgb): (e: (byte, byte))
    ensures e.0 / 16 == HighNibble(c.g) && e.0 % 16 == HighNibble(c.b)
    ensures e.1 < 16 && e.1 == HighNibble(c.r)
  {
    (16 * HighNibble(c.g) + HighNibble(c.b), HighNibble(c.r))
  }

  /** How the VERA reads a two-byte palette entry back as a 12-bit colour. */
  function VeraColor(lo: byte, hi: byte): Rgb12
  {
    Rgb12(hi % 16, lo / 16, lo % 16)
  }

  /** The colour an 8-bit entry keeps once each channel is cut to its high nibble. */
  function Quantize(c: Rgb): Rgb12
  {
    Rgb12(c.r / 16, c.g / 16, c.b / 16)
  }

  /** The reduced palette: the two bytes of every entry, entry after entry. */
  function Reduce(es: seq<Rgb>): (out: seq<byte>)
    ensures |out| == 2 * |es|
  {
    if |es| == 0 then []
    else
      var e := VeraEntry(es[0]);
      [e.0, e.1] + Reduce(es[1..])
  }

  /** Reading the reduced palette as VERA colours, two bytes at a time. */
  function Colors(vera: seq<byte>): seq<Rgb12>
    decreases |vera|
  {
    if |vera| < 2 then [] else [VeraColor(vera[0], vera[1])] + Colors(vera[2..])
  }

  /**
   Round trip: the VERA reads each reduced entry as the entry's colour cut to
   four bits per channel, in palette order, with no byte lost or added.
   */
  lemma {:induction false} ReduceKeepsColors(es: seq<Rgb>)
    ensures |Colors(Reduce(es))| == |es|
    ensures forall i :: 0 <= i < |es| ==> Colors(Reduce(es))[i] == Quantize(es[i])
    decreases |es|
  {
    if |es| > 0 {
      var out := Reduce(es);
      ReduceKeepsColors(es[1..]);
      assert out[2..] == Reduce(es[1..]);
      assert Colors(out) == [VeraColor(out[0], out[1])] + Colors(Reduce(es[1..]));
    }
  }

  /** `2 * palette.len() / 3`: the `_palette_length` value. */
  function PaletteLength(len: nat): nat
  {
    2 * len / 3
  }

  /** `_palette_length` is the number of bytes the reduced palette holds. */
  lemma PaletteLengthCounts(p: seq<byte>)
    requires |p| % 3 == 0
    ensures PaletteLength(|p|) == |Reduce(Entries(p))| == 2 * (|p| / 3)
  {
  }

  /** The text of one entry's line: `0x{G:1X}{B:1X}` and `0x0{R:1X}`. */
  function EntryLiterals(c: Rgb): (lits: seq<string>)
    ensures |lits| == 2
    ensures ParseLiteral(lits[0]) == Some(VeraEntry(c).0)
    ensures ParseLiteral(lits[1]) == Some(VeraEntry(c).1)
  {
    HexPairValue(HighNibble(c.g), HighNibble(c.b));
    HexPairValue(0, HighNibble(c.r));
    var first := "0x" + [HexDigit(HighNibble(c.g)), HexDigit(HighNibble(c.b))];
    var second := "0x" + [HexDigit(0), HexDigit(HighNibble(c.r))];
    [first, second]
  }

  /** The lines of the `_palette[]` initialiser, one per entry. */
  function PaletteLines(es: seq<Rgb>): (ls: seq<seq<string>>)
    ensures |ls| == |es|
    ensures forall i :: 0 <= i < |es| ==> ls[i] == EntryLiterals(es[i])
  {
    seq(|es|, i requires 0 <= i < |es| => EntryLiterals(es[i]))
  }

  /** The literals of the palette lines read back as the reduced palette bytes. */
  lemma {:induction false} PaletteLinesRead(es: seq<Rgb>)
    ensures ParseAll(Flatten(PaletteLines(es))) == Some(Reduce(es))
    decreases |es|
  {
    if |es| > 0 {
      var ls := PaletteLines(es);
      var e := VeraEntry(es[0]);
      assert ls[1..] == PaletteLines(es[1..]);
      PaletteLinesRead(es[1..]);
      var lits := ls[0];
      ParsePair(lits[0], lits[1], e.0, e.1);
      assert lits == [lits[0], lits[1]];
      assert [e.0, e.1] + Reduce(es[1..]) == Reduce(es);
      ParseAllAppend(lits, Flatten(ls[1..]));
    }
  }
}

=== FILE: results.dfy ===
/** Failure-carrying wrappers shared by the converter's modules. */
module Results {

  /** A value that may be absent, like Rust's `Option`. */
  datatype Option<+T> = None | Some(value: T)

  /** The outcome of a step that can abort the run, like Rust's `Result`. */
  datatype Result<+T, +E> = Ok(value: T) | Err(error: E)
}

=== FILE: validation.dfy ===
/**
 The checks the converter makes on the decoded PNG header before it writes
 anything, and the mapping from the PNG bit depth to bits per pixel.

 The decoder reports the header fields; the converter then panics, in this
 order, when the image has no `PLTE` palette, when the width or the height is
 not a multiple of 8, when the palette's byte length is not a multiple of 3,
 or when the colour type is not indexed. A 16-bit depth reaches
 `unimplemented!()`, a failure of its own kind. Each panic is an `Err` here.
 */
module Validation {
  import opened Results
  import opened Bytes

  /** The PNG bit depths the decoder reports (section 11.2.2 of the PNG specification). */
  datatype BitDepth = One | Two | Four | Eight | Sixteen

  /** The PNG colour types the decoder reports. */
  datatype ColorType = Grayscale | Rgb | Indexed | GrayscaleAlpha | Rgba

  /** The header fields the converter reads; `palette` is the raw `PLTE` bytes, if any. */
  datatype Info = Info(
    width: nat,
    height: nat,
    bitDepth: BitDepth,
    colorType: ColorType,
    palette: Option<seq<byte>>)

  /** Why a run stops before writing any output. */
  datatype Failure =
    | MissingPalette          // "Input image has no palette."
    | WidthNotMultipleOf8
    | HeightNotMultipleOf8
    | PaletteNotTriples
    | NotIndexed
    | SixteenBitUnimplemented // `unimplemented!()`, not a rejected input

  /** An image that passed every check, with its bits per pixel. */
  datatype Image = Image(width: nat, height: nat, bpp: nat, palette: seq<byte>)

  /** The sample depth each PNG bit depth stands for. */
  function Bits(d: BitDepth): nat
  {
    match d
    case One => 1
    case Two => 2
    case Four => 4
    case Eight => 8
    case Sixteen => 16
  }

  /** The bit depths PNG allows for an indexed image. */
  predicate ValidBpp(bpp: nat)
  {
    bpp == 1 || bpp == 2 || bpp == 4 || bpp == 8
  }

  /** What every accepted image satisfies. */
  predicate ValidImage(img: Image)
  {
    && img.width % 8 == 0
    && img.height % 8 == 0
    && |img.palette| % 3 == 0
    && ValidBpp(img.bpp)
  }

  /** The `match` on the bit depth. */
  function BitsPerPixel(d: BitDepth): (r: Result<nat, Failure>)
    ensures r.Ok? <==> d != Sixteen
    ensures r.Ok? ==> r.value == Bits(d) && ValidBpp(r.value) && 8 % r.value == 0
    ensures r.Err? ==> r.error == SixteenBitUnimplemented
  {
    match d
    case One => Ok(1)
    case Two => Ok(2)
    case Four => Ok(4)
    case Eight => Ok(8)
    case Sixteen => Err(SixteenBitUnimplemented)
  }

  /** The four assertions and the palette check, all passing. */
  predicate PassesChecks(info: Info)
  {
    && info.palette.Some?
    && info.width % 8 == 0
    && info.height % 8 == 0
    && |info.palette.value| % 3 == 0
    && info.colorType == Indexed
  }

  /** The converter's checks, in its order, followed by the bit-depth mapping. */
  function Validate(info: Info): (r: Result<Image, Failure>)
    ensures r.Ok? <==> PassesChecks(info) && info.bitDepth != Sixteen
    ensures r.Ok? ==> ValidImage(r.value)
    ensures r.Ok? ==> r.value == Image(info.width, info.height, Bits(info.bitDepth), info.palette.value)
    ensures r == Err(SixteenBitUnimplemented) <==> PassesChecks(info) && info.bitDepth == Sixteen
    // a rejected image reports the first check it fails, in the converter's order
    ensures r == Err(MissingPalette) <==> info.palette.None?
    ensures r == Err(WidthNotMultipleOf8) <==> info.palette.Some? && info.width % 8 != 0
    ensures r == Err(HeightNotMultipleOf8)
      <==> info.palette.Some? && info.width % 8 == 0 && info.height % 8 != 0
    ensures r == Err(PaletteNotTriples)
      <==> info.palette.Some? && info.width % 8 == 0 && info.height % 8 == 0
           && |info.palette.value| % 3 != 0
    ensures r == Err(NotIndexed)
      <==> info.palette.Some? && info.width % 8 == 0 && info.height % 8 == 0
           && |info.palette.value| % 3 == 0 && info.colorType != Indexed
  {
    if info.palette.None? then Err(MissingPalette)
    else if info.width % 8 != 0 then Err(WidthNotMultipleOf8)
    else if info.height % 8 != 0 then Err(HeightNotMultipleOf8)
    else if |info.palette.value| % 3 != 0 then Err(PaletteNotTriples)
    else if info.colorType != Indexed then Err(NotIndexed)
    else
      match BitsPerPixel(info.bitDepth)
      case Err(e) => Err(e)
      case Ok(bpp) => Ok(Image(info.width, info.height, bpp, info.palette.value))
  }

  /**
   One input per failure: a 10-pixel-wide image fails the width check, a 10-byte
   palette the triples check, a greyscale image with a 9-byte palette the colour
   type check, a 16-bit indexed image the depth check, and an image without a
   palette the palette check.
   */
  lemma RejectionExamples(p: seq<byte>)
    requires |p| == 10
    ensures Validate(Info(10, 16, Eight, Indexed, Some(p))) == Err(WidthNotMultipleOf8)
    ensures Validate(Info(8, 8, Eight, Indexed, Some(p))) == Err(PaletteNotTriples)
    ensures Validate(Info(8, 8, Eight, Grayscale, Some(p[..9]))) == Err(NotIndexed)
    ensures Validate(Info(8, 8, Sixteen, Indexed, Some(p[..9]))) == Err(SixteenBitUnimplemented)
    ensures Validate(Info(8, 8, Eight, Indexed, None)) == Err(MissingPalette)
  {
  }
}
